=== FILE: README.md ===
# Weather particles (Warzone 2100, `src/atmos.cpp`) in Dafny

This project models the ambient weather system of Warzone 2100. The system is a
fixed-capacity pool of rain or snow particles and the rules that act on it:

- the **slot allocator**, `atmosAddParticle`. It scans circularly from a
  persistent cursor for an inactive slot and gives up after a run of active slots.
- the **per-particle step**, `processParticle`, which runs in this order:
  1. move by the frame-scaled velocity;
  2. wrap around the camera's visible window;
  3. kill the particle if it left the world;
  4. kill it on ground contact, requesting a splash when rain lands in visible water;
  5. re-drift snow at random.
- the **spawn-rate accumulator** and the **spawn gate** in `atmosUpdateSystem`.
  Each tick the accumulator grows by 2 (snow) or 4 (rain) times the game speed;
  its whole part is spawned and the fraction carried over. Only positions
  strictly inside the map reach the allocator.
- the **weather-mode controller**: `atmosInitSystem`, `atmosSetWeatherType` and
  `atmosGetWeatherType`. It keeps a pool allocated exactly while there is weather.

The model is pure. The module's static variables become one
`WeatherControl.Atmos` value: the file-scope pool pointer, cursor and weather,
and the spawn accumulator, a function-local static of `atmosUpdateSystem` that
only a tick with weather and no pause touches. The pool is a
`seq<Particle>`; a missing pool is `None`. The game queries are parameters:

- `Motion.Hooks`: the frame-scaled increment, the ground height, and whether a
  tile is water visible to the player;
- `AtmosTypes.Env`: camera position, visible tiles, map size, tile size and the
  ground-test height limit;
- the pause flag and the game-speed modifier;
- raw `rand()` results.

The `%` arithmetic of the random macros is modelled, so the velocity ranges are
proved, not assumed.

Modules:

- `AtmosTypes` (`types.dfy`): records, the weather, the environment, C truncation
  (`Trunc`, `CDiv2`) and the velocity macros.
- `Allocator` (`allocator.dfy`): the scan, the allocator and the fill lemmas.
- `Motion` (`motion.dfy`): wrap, ground and world tests, and the particle step.
- `SpawnRate` (`spawnrate.dfy`): the accumulator, spawn positions and the gate.
- `WeatherControl` (`weather.dfy`): the controller and the whole tick.

Behaviour of the code that is easy to misread, modelled as written:

- **Slot 0 is skipped on wrap-around.** At the last slot the scan resets the
  index to 0, and the for-loop increment then moves it to 1. Slot 0 is examined
  only when the cursor is on it (`Allocator.Next`).
- **The cap limits a run of active slots, not the number of active slots.** A
  request is dropped when the scan passes `capacity - 1` active slots in a row.
  Filling from an empty pool of three or more slots makes every slot active
  (`Allocator.FreshPoolFillsCompletely`). Also, in a two-slot pool the second
  request is dropped although a slot is free (`Allocator.TwoSlotPoolHoldsOne`).
  The code's own comments suggest otherwise. "Go back to the first one"
  (src/atmos.cpp:196) reads as a wrap to slot 0, and "All of the particles
  active!?!?" (src/atmos.cpp:204) reads as a count of active particles. The
  model follows what the statements do.
- **The z spawn offset mixes axes.** The random range comes from
  `visibleTiles.x`, but the centring subtracts `visibleTiles.y / 2`. With an
  even tile size, a window at least two tiles wider than an even depth, or one
  tile wider than an odd depth, therefore spawns particles beyond its far edge;
  a narrower one never does (`SpawnRate.SpawnBeyondFarEdgeExactly`,
  `SpawnRate.SpawnDepthExceedsWindow`). The code uses the x extent for the
  z range only, not for the z centring.
- **Truncation.** `static_cast<int>` truncates toward zero (`Trunc`), and the
  C `/ 2` on `int` also truncates toward zero (`CDiv2`). `map_coord` is an
  arithmetic shift, modelled as floor division by the tile size.

## Model

| member | source | states |
|---|---|---|
| `AtmosTypes.EmptyPool` | src/atmos.cpp:74-78 | a freshly allocated pool has the full capacity and every slot is inactive (the zero-filled record) |
| `AtmosTypes.Trunc` | src/atmos.cpp:145-148 | the float-to-int cast truncates toward zero: the result is within one below a non-negative value and within one above a negative one |
| `AtmosTypes.CDiv2` | src/atmos.cpp:88-106 | integer halving of the window width rounds toward zero, so twice the half is the width or one less in magnitude |
| `AtmosTypes.DriftRangesExact` | src/atmos.cpp:50-53 | every value in the stated drift and fall ranges is produced by some `rand()` result, so the ranges are exact |
| `AtmosTypes.SnowDrift` | src/atmos.cpp:50 | a snow drift component lies in [-39,40] |
| `AtmosTypes.SnowFall` | src/atmos.cpp:51 | a snow fall speed lies in [-119,-80] |
| `AtmosTypes.RainDrift` | src/atmos.cpp:52 | a rain drift component lies in [0,49] |
| `AtmosTypes.RainFall` | src/atmos.cpp:53 | a rain fall speed lies in [-999,-700] |
| `Allocator.SpawnVelocity` | src/atmos.cpp:236-244 | rain starts with x,z drift in [0,49] and fall in [-999,-700]; snow with x,z drift in [-39,40] and fall in [-119,-80] |
| `Allocator.Spawned` | src/atmos.cpp:212-234 | the new record is active, has the requested kind and position, size 80 for snow and 50 for rain, and the kind's random velocity |
| `Allocator.Next` | src/atmos.cpp:190-199 | the next slot scanned is in range and never slot 0: after the last slot the scan resumes at slot 1 |
| `Allocator.Probe` | src/atmos.cpp:190-199 | every slot the scan visits is in range, and only the starting slot can be slot 0 |
| `Allocator.Scan` | src/atmos.cpp:190-199 | the scan ends with the index in range and at most `capacity` active slots counted; below the cap it stopped on an inactive slot |
| `Allocator.ScanFollowsProbe` | src/atmos.cpp:190-199 | the scan stops at the probe numbered by its final count, and every slot it passed was active |
| `Allocator.AddParticle` | src/atmos.cpp:185-245 | the request is dropped, leaving pool and cursor unchanged, exactly when the first capacity−1 scanned slots are all active; otherwise the first inactive scanned slot, and only it, gets the new particle and becomes the cursor |
| `Allocator.FillsEverySlot` | src/atmos.cpp:190-209 | from a pool whose slots 0..k−1 are active and all others inactive, with the cursor at k−1 (or 0 when k = 0), each further request fills the next slot in order and moves the cursor to it, up to the last slot |
| `Allocator.FreshPoolFillsCompletely` | src/atmos.cpp:185-245 | a fresh pool of capacity C ≥ 3 has all C slots active after C requests: no slot is kept in reserve |
| `Allocator.TwoSlotPoolHoldsOne` | src/atmos.cpp:190-206 | in a two-slot pool the second request is dropped with slot 1 still free, because one active slot already reaches the cap |
| `Motion.WrapAxis` | src/atmos.cpp:87-97 | a wrapped coordinate moves by exactly one window width or not at all, and is unchanged inside the window |
| `Motion.Wrap` | src/atmos.cpp:85-110 | height is never changed; x moves by zero or one visible width, z by zero or one visible depth |
| `Motion.WrapCases` | src/atmos.cpp:87-97 | for a non-negative width: below the window gains the width, above it loses the width, both cannot apply, and the coordinate stays exactly when inside the window |
| `Motion.WrapReentersWindow` | src/atmos.cpp:83-110 | with an even window width, a coordinate that left the window by at most one width returns inside it, and wrapping again changes nothing |
| `Motion.Redrift` | src/atmos.cpp:170-180 | snow re-drift keeps the fall speed; each horizontal component is kept unless its roll is 1 mod 30, in which case it is redrawn within [-39,40] |
| `Motion.ProcessParticle` | src/atmos.cpp:113-182 | paused: unchanged. Otherwise the new position is the moved and wrapped one. Leaving the world kills with nothing else changed. Ground contact kills. A splash of size 60 at (trunc x, ground, trunc z) is requested exactly for rain killed by the ground over visible water. A survivor keeps status and fall speed, and the kind never changes |
| `Motion.OnWorldTileOnMap` | src/atmos.cpp:131-157 | a position that passes the world test lies over a map tile on both axes, so the ground and water lookups that follow stay on the map |
| `Motion.GroundContact` | src/atmos.cpp:141-149 | nothing at or above the height limit is tested; below it, testing the truncated height against the integer ground height decides contact exactly as testing the real height would |
| `Motion.SurvivorIsOnWorld` | src/atmos.cpp:131-169 | a particle still active after an unpaused step lies within the world bounds and is not in ground contact |
| `Motion.SnowNeverSplashes` | src/atmos.cpp:153-166 | snow never requests a splash |
| `SpawnRate.Accumulate` | src/atmos.cpp:268-277 | numberToAdd and the carried fraction are the whole and fractional parts of the old value plus this tick's addition; the fraction stays in [0,1); a NaN modifier changes nothing |
| `SpawnRate.AccumulateTicks` | src/atmos.cpp:266-277 | over a run of ticks, the requested total plus the final fraction equals the starting fraction plus all additions, with the fraction in [0,1) |
| `SpawnRate.SpawnCountConserved` | src/atmos.cpp:266-277 | over any run of ticks, the particles requested are the floor of the starting fraction plus everything added, and the rest is carried |
| `SpawnRate.SnowAtNormalSpeed` | src/atmos.cpp:273-277 | snowing at speed 1 from an empty accumulator requests exactly 2 particles per tick and carries 0 |
| `SpawnRate.SpawnPosition` | src/atmos.cpp:280-286 | a spawn is at height 1000, a whole number of tiles from the camera; x is within the visible width centred on the camera; z uses the visible width for its range and half the visible depth for its centre |
| `SpawnRate.SpawnOffsetsExact` | src/atmos.cpp:284-285 | every tile offset in those ranges is reachable by some draw |
| `SpawnRate.SpawnDepthExceedsWindow` | src/atmos.cpp:285 | with a window 10 tiles wide and 4 deep, a spawn can land 5 tiles beyond the far edge of the window |
| `SpawnRate.SpawnBeyondFarEdgeExactly` | src/atmos.cpp:285 | with an even tile size, some spawn lands beyond the window's far edge (the one the wrap uses) exactly when twice the largest z tile offset, width − 1 − depth/2, exceeds the depth; otherwise every draw stays within it |
| `SpawnRate.SpawnKind` | src/atmos.cpp:294-304 | snow is spawned exactly when snowing, rain exactly when raining, and nothing without weather |
| `SpawnRate.OnGrid` | src/atmos.cpp:288-291 | a position the spawn gate admits is inside the world bounds the step enforces |
| `WeatherControl.Initial` | src/atmos.cpp:67-69 | at start there is no weather and no pool, and the state invariant holds |
| `WeatherControl.InitSystem` | src/atmos.cpp:72-81 | the cursor is reset; an existing pool is kept; with weather and no pool, a fresh all-inactive pool is allocated; the invariant is preserved |
| `WeatherControl.InitSystemIdempotent` | src/atmos.cpp:72-81 | initialising twice equals initialising once |
| `WeatherControl.SetWeatherType` | src/atmos.cpp:367-379 | the invariant is preserved. Clearing the weather releases the pool. A change resets the cursor. Setting the current weather again changes nothing. Rain to snow and back keeps the pool. Weather from none gets a fresh all-inactive pool |
| `WeatherControl.GetWeatherType` | src/atmos.cpp:381-384 | under the state invariant, the weather read back is none exactly when no pool exists, and otherwise a full-size pool exists |
| `WeatherControl.WeatherReadBack` | src/atmos.cpp:381-384 | the weather read back is the last one set, and initialisation does not change it |
| `WeatherControl.ControllerKeepsInvariant` | src/atmos.cpp:367-379 | across any sequence of weather changes and initialisations, "pool exists iff weather ≠ none" holds, and the weather is the last one set |
| `WeatherControl.ProcessAll` | src/atmos.cpp:257-264 | each active slot takes one step, inactive slots are untouched, and the splash requests come in slot order |
| `WeatherControl.KindOf` | src/atmos.cpp:293-304 | under weather, the kind handed to the allocator is the one the weather spawns |
| `WeatherControl.Attempt` | src/atmos.cpp:282-305 | a spawn attempt whose position fails the map gate changes neither the pool nor the cursor; otherwise the position goes to the allocator |
| `WeatherControl.SpawnAttempts` | src/atmos.cpp:280-306 | the attempts run in order, each through the gate and then the allocator; if no position passes the gate, pool and cursor are unchanged |
| `WeatherControl.AttemptOnlyFillsFreeSlot` | src/atmos.cpp:288-305 | one attempt changes at most one slot, the new cursor, which was inactive in the current pool and was inactive in the stepped pool; it now holds an active particle of the weather's kind, at height 1000, inside the map |
| `WeatherControl.SpawnAttemptsOnlyFillFreeSlots` | src/atmos.cpp:280-306 | over the remaining attempts, every particle active before them (survivor of the step or earlier spawn of the tick) is kept; every changed slot was inactive after the step and holds such a fresh spawn; at most numberToAdd particles are added |
| `WeatherControl.SpawnAll` | src/atmos.cpp:280-306 | the pool and cursor after the loop are those of the allocator applied, in order, to every drawn position that passes the gate. No live particle is overwritten. At most numberToAdd particles are added. With no position through the gate nothing changes |
| `WeatherControl.UpdateSystem` | src/atmos.cpp:248-308 | paused or without weather nothing changes. Otherwise the invariant is kept, the accumulator advances, and splashes are those of the step. Pool and cursor are those of the gated allocation attempts applied to the stepped pool. Each slot holds its stepped particle or a fresh spawn in a slot the step left inactive. With no position through the gate, the pool is the stepped one and the cursor stays |

## Left out

- Rendering (`renderParticleInternal`, `atmosDrawParticles`, `renderParticle`): matrix maths, clipping and draw calls into the graphics library. The size-keyed matrix cache there is only a performance measure.
- Allocation failure of the pool: the code does not handle it. The pool size `MAX_ATMOS_PARTICLES` comes from map.h, which is not part of this model. The capacity is a field of the state, and every operation's contract holds for any capacity of at least 2; the fill lemmas (`Allocator.FillsEverySlot`, `Allocator.FreshPoolFillsCompletely`) need at least 3. With a capacity of 1 the drop test becomes `activeCount >= 0` and drops every request, so slot 0 never becomes active; only a pool whose slot 0 is already active would make the scan read past the pool (src/atmos.cpp:190-199).
- The display model pointer is a tag (`Imd`), not a lookup of the model table.
- `rand()` is a supply of raw non-negative draws: per slot for the snow re-drift, and per spawn attempt for the position and velocity. The exact interleaving of calls on the shared generator is not modelled.
- Floating point: positions, velocities and the accumulator are exact reals. IEEE rounding and NaN propagation in positions are not modelled. A NaN game-speed modifier is a separate constructor.
- `Motion.ProcessParticle`: the splash effect is a returned record; the effect system itself is not part of this model.
- `SpawnRate.Accumulate`: does not model the 32-bit unsigned cast overflowing for a sum of 2^32 or more, since that cast is undefined behaviour in C++. It requires a non-negative modifier. The game speed is never negative, and a negative one can drive the carried value to −1 or below, where the cast is undefined. A sum in (−1, 0) truncates to 0 and leaves a negative carry, which this model does not represent.
- `WeatherControl.UpdateSystem`: the pause flag is read once per tick and passed to every particle step, as the game reports the same value within a tick.

=== FILE: allocator.dfy ===
/**
 The spawn allocator: a circular scan for an inactive slot starting at the
 persistent cursor, giving up when too many active slots were passed.
 */
module Allocator {
  import opened AtmosTypes

  /** Three raw rand() results, one per velocity component. */
  datatype VelocityDraws = VelocityDraws(x: nat, y: nat, z: nat)

  /** The display model and size a kind is spawned with. */
  function ImdOf(kind: ParticleType): Imd {
    match kind
    case Snow => SnowImd
    case Rain => RainImd
  }

  function SizeOf(kind: ParticleType): nat {
    match kind
    case Snow => 80
    case Rain => 50
  }

  /** The velocity a new particle starts with. */
  function SpawnVelocity(kind: ParticleType, d: VelocityDraws): (v: Vec3)
    ensures kind == Rain ==>
      && 0.0 <= v.x <= 49.0 && 0.0 <= v.z <= 49.0
      && -999.0 <= v.y <= -700.0
    ensures kind == Snow ==>
      && -39.0 <= v.x <= 40.0 && -39.0 <= v.z <= 40.0
      && -119.0 <= v.y <= -80.0
  {
    match kind
    case Rain => Vec3(RainDrift(d.x) as real, RainFall(d.y) as real, RainDrift(d.z) as real)
    case Snow => Vec3(SnowDrift(d.x) as real, SnowFall(d.y) as real, SnowDrift(d.z) as real)
  }

  /** The record written into the slot the allocator picks. */
  function Spawned(pos: Vec3, kind: ParticleType, d: VelocityDraws): (p: Particle)
    ensures p.status == Active && p.kind == kind && p.position == pos
    ensures p.size == (if kind == Snow then 80 else 50)
    ensures p.velocity == SpawnVelocity(kind, d)
  {
    Particle(kind, Active, ImdOf(kind), SizeOf(kind), pos, SpawnVelocity(kind, d))
  }

  /**
   The slot examined after slot `i`. At the last slot the loop body resets the
   index to 0 and the for-statement's increment then moves it to 1, so a wrap
   never lands on slot 0.
   */
  function Next(i: nat, cap: nat): (j: nat)
    requires 2 <= cap && i < cap
    ensures 1 <= j < cap
    ensures i < cap - 1 ==> j == i + 1
    ensures i == cap - 1 ==> j == 1
  {
    var wrapped := if i >= cap - 1 then 0 else i;
    wrapped + 1
  }

  /** The `k`-th slot a scan starting at `start` examines. */
  function Probe(start: nat, k: nat, cap: nat): (i: nat)
    requires 2 <= cap && start < cap
    ensures i < cap
    ensures 0 < k ==> 0 < i
  {
    if k == 0 then start else Next(Probe(start, k - 1, cap), cap)
  }

  /** The first `k` slots examined from `start` are all active. */
  predicate ActiveRun(parts: seq<Particle>, start: nat, k: nat)
    requires 2 <= |parts| && start < |parts|
  {
    forall j :: 0 <= j < k ==> parts[Probe(start, j, |parts|)].status == Active
  }

  /**
   The scan loop from slot `i` with `count` active slots already passed; returns
   the slot where it stopped and the number of active slots it passed. The count
   is capped at the pool size, so the scan always ends.
   */
  function Scan(parts: seq<Particle>, i: nat, count: nat): (r: (nat, nat))
    requires 2 <= |parts| && i < |parts| && count <= |parts|
    ensures r.0 < |parts| && count <= r.1 <= |parts|
    ensures r.1 < |parts| ==> parts[r.0].status == Inactive
    decreases |parts| - count
  {
    if parts[i].status == Active && count < |parts| then
      Scan(parts, Next(i, |parts|), count + 1)
    else
      assert count < |parts| ==> parts[i].status != Active;
      (i, count)
  }

  /**
   A scan resumed at the `k`-th probe stops at the probe numbered by its final
   count, and every probe before that was active.
   */
  lemma {:induction false} ScanFollowsProbe(parts: seq<Particle>, start: nat, k: nat)
    requires 2 <= |parts| && start < |parts| && k <= |parts|
    requires ActiveRun(parts, start, k)
    ensures var r := Scan(parts, Probe(start, k, |parts|), k);
      && k <= r.1
      && r.0 == Probe(start, r.1, |parts|)
      && ActiveRun(parts, start, r.1)
    decreases |parts| - k
  {
    var i := Probe(start, k, |parts|);
    if parts[i].status == Active && k < |parts| {
      assert ActiveRun(parts, start, k + 1) by {
        forall j | 0 <= j < k + 1
          ensures parts[Probe(start, j, |parts|)].status == Active
        {
          if j == k {
            assert Probe(start, j, |parts|) == i;
          }
        }
      }
      ScanFollowsProbe(parts, start, k + 1);
    }
  }

  /**
   atmosAddParticle on a pool `parts` with cursor `free`: returns the new pool and
   cursor.
   */
  function AddParticle(parts: seq<Particle>, free: nat, pos: Vec3, kind: ParticleType, d: VelocityDraws)
    : (r: (seq<Particle>, nat))
    requires 2 <= |parts| && free < |parts|
    ensures |r.0| == |parts| && r.1 < |parts|
    // the request is dropped, leaving pool and cursor alone, exactly when the first
    // |parts| - 1 slots the scan examines are all active
    ensures r == (parts, free) <==> ActiveRun(parts, free, |parts| - 1)
    // otherwise the first inactive slot of the scan, and only it, receives the particle,
    // and the cursor moves to it
    ensures r != (parts, free) ==>
      && (exists k :: 0 <= k < |parts| - 1 && ActiveRun(parts, free, k) && r.1 == Probe(free, k, |parts|))
      && parts[r.1].status == Inactive
      && r.0 == parts[r.1 := Spawned(pos, kind, d)]
  {
    ScanFollowsProbe(parts, free, 0);
    var (i, activeCount) := Scan(parts, free, 0);
    if activeCount >= |parts| - 1 then
      (parts, free)
    else
      var parts' := parts[i := Spawned(pos, kind, d)];
      assert parts'[i] != parts[i];
      (parts', i)
  }

  /** `n` allocations in a row with the same arguments. */
  function AddMany(parts: seq<Particle>, free: nat, n: nat, pos: Vec3, kind: ParticleType, d: VelocityDraws)
    : (r: (seq<Particle>, nat))
    requires 2 <= |parts| && free < |parts|
    ensures |r.0| == |parts| && r.1 < |parts|
    decreases n
  {
    if n == 0 then (parts, free)
    else
      var (parts', free') := AddParticle(parts, free, pos, kind, d);
      AddMany(parts', free', n - 1, pos, kind, d)
  }

  /** Slots below `k` are active and the rest inactive. */
  predicate FilledUpTo(parts: seq<Particle>, k: nat) {
    forall j :: 0 <= j < |parts| ==> (parts[j].status == Active <==> j < k)
  }

  /** The cursor after filling slots below `k` from an empty pool. */
  function FillCursor(k: nat): nat {
    if k == 0 then 0 else k - 1
  }

  /** One allocation on a pool filled up to `k` (and not full) fills slot `k`. */
  lemma FillStep(parts: seq<Particle>, k: nat, pos: Vec3, kind: ParticleType, d: VelocityDraws)
    requires 3 <= |parts| && k < |parts| && FilledUpTo(parts, k)
    ensures var r := AddParticle(parts, FillCursor(k), pos, kind, d);
      FilledUpTo(r.0, k + 1) && r.1 == k
  {
    var cap := |parts|;
    if k == 0 {
      assert Scan(parts, 0, 0) == (0, 0);
    } else {
      assert Next(k - 1, cap) == k;
      assert Scan(parts, k, 1) == (k, 1);
      assert Scan(parts, k - 1, 0) == (k, 1);
    }
  }

  /**
   Starting from a freshly allocated pool of at least three slots, every allocation
   succeeds until all slots are active: the count cap bounds a run of consecutive
   active slots, not the number of active slots, so no slot is kept in reserve.
   */
  lemma {:induction false} FillsEverySlot(parts: seq<Particle>, k: nat, n: nat, pos: Vec3, kind: ParticleType, d: VelocityDraws)
    requires 3 <= |parts| && k + n <= |parts| && FilledUpTo(parts, k)
    ensures var r := AddMany(parts, FillCursor(k), n, pos, kind, d);
      FilledUpTo(r.0, k + n) && r.1 == FillCursor(k + n)
    decreases n
  {
    if n > 0 {
      FillStep(parts, k, pos, kind, d);
      var (parts', free') := AddParticle(parts, FillCursor(k), pos, kind, d);
      FillsEverySlot(parts', k + 1, n - 1, pos, kind, d);
    }
  }

  /** Hence a fresh pool of capacity C ends with all C slots active after C allocations. */
  lemma FreshPoolFillsCompletely(cap: nat, pos: Vec3, kind: ParticleType, d: VelocityDraws)
    requires 3 <= cap
    ensures var r := AddMany(EmptyPool(cap), 0, cap, pos, kind, d);
      ActiveCount(r.0) == cap && r.1 == cap - 1
  {
    FillsEverySlot(EmptyPool(cap), 0, cap, pos, kind, d);
    var r := AddMany(EmptyPool(cap), 0, cap, pos, kind, d);
    AllActiveCount(r.0);
  }

  lemma {:induction false} AllActiveCount(parts: seq<Particle>)
    requires forall j :: 0 <= j < |parts| ==> parts[j].status == Active
    ensures ActiveCount(parts) == |parts|
  {
    if |parts| > 0 {
      AllActiveCount(parts[1..]);
    }
  }

  /** With two slots, the second request is dropped although slot 1 is free: the
      scan passed one active slot, which already reaches the cap of |parts| - 1. */
  lemma TwoSlotPoolHoldsOne(pos: Vec3, kind: ParticleType, d: VelocityDraws)
    ensures var r := AddMany(EmptyPool(2), 0, 2, pos, kind, d);
      r.0[0].status == Active && r.0[1].status == Inactive && r.1 == 0
  {
    var e := EmptyPool(2);
    assert Scan(e, 0, 0) == (0, 0);
    var (p1, f1) := AddParticle(e, 0, pos, kind, d);
    assert Scan(p1, 1, 1) == (1, 1);
    assert Scan(p1, 0, 0) == (1, 1);
  }
}

=== FILE: motion.dfy ===
/**
 The per-particle step: move, wrap around the camera window, then kill the
 particle if it left the world or reached the ground, requesting a splash for
 rain falling into visible water.
 */
module Motion {
  import opened AtmosTypes

  /**
   The game queries the step makes: the frame-rate scaled increment of a velocity
   component, the ground height at a world position, and whether the tile at
   tile coordinates is water visible to the selected player.
   */
  datatype Hooks = Hooks(
    increment: real -> real,
    groundHeight: (int, int) -> int,
    visibleWater: (int, int) -> bool)

  /** Raw rand() results for the snow re-drift: a roll and a drift value per axis. */
  datatype DriftDraws = DriftDraws(zRoll: nat, z: nat, xRoll: nat, x: nat)

  /** A splash effect request at a world position, with its size. */
  datatype Splash = Splash(x: int, y: int, z: int, size: nat)

  /** The visible window on one axis around `centre`, `width` world units wide. */
  function WindowLow(centre: int, width: int): int { centre - CDiv2(width) }
  function WindowHigh(centre: int, width: int): int { centre + CDiv2(width) }

  /** One axis of testParticleWrap: off the low side gains a window width, off the high side loses one. */
  function WrapAxis(p: real, centre: int, width: int): (r: real)
    // the position moves by exactly one window width or not at all
    ensures r == p || r == p + width as real || r == p - width as real
    // a position inside the window stays put
    ensures WindowLow(centre, width) as real <= p <= WindowHigh(centre, width) as real ==> r == p
  {
    if p < WindowLow(centre, width) as real then p + width as real
    else if p > WindowHigh(centre, width) as real then p - width as real
    else p
  }

  /** testParticleWrap: x against the camera's window width, z against its depth; y untouched. */
  function Wrap(env: Env, pos: Vec3): (r: Vec3)
    ensures r.y == pos.y
    ensures var w := WorldCoord(env, env.visibleX) as real; r.x == pos.x || r.x == pos.x + w || r.x == pos.x - w
    ensures var w := WorldCoord(env, env.visibleY) as real; r.z == pos.z || r.z == pos.z + w || r.z == pos.z - w
  {
    Vec3(WrapAxis(pos.x, env.playerX, WorldCoord(env, env.visibleX)),
         pos.y,
         WrapAxis(pos.z, env.playerZ, WorldCoord(env, env.visibleY)))
  }

  /**
   For a non-negative width the window is not empty, the two shifts exclude each
   other, below the window gains the width, above it loses the width, and the
   position is left alone exactly when it is inside the window (or the width is 0).
   */
  lemma WrapCases(p: real, centre: int, width: int)
    requires 0 <= width
    ensures WindowLow(centre, width) <= WindowHigh(centre, width)
    ensures !(p < WindowLow(centre, width) as real && p > WindowHigh(centre, width) as real)
    ensures p < WindowLow(centre, width) as real ==> WrapAxis(p, centre, width) == p + width as real
    ensures p > WindowHigh(centre, width) as real ==> WrapAxis(p, centre, width) == p - width as real
    ensures WrapAxis(p, centre, width) == p
        <==> (width == 0 || WindowLow(centre, width) as real <= p <= WindowHigh(centre, width) as real)
  {
  }

  /**
   With an even, positive window width (a whole number of tiles times an even
   tile size), a position that left the window by at most one width comes back
   inside it; wrapping again then changes nothing.
   */
  lemma WrapReentersWindow(p: real, centre: int, width: int)
    requires 0 < width && width % 2 == 0
    requires (WindowLow(centre, width) - width) as real <= p <= (WindowHigh(centre, width) + width) as real
    ensures WindowLow(centre, width) as real <= WrapAxis(p, centre, width) <= WindowHigh(centre, width) as real
    ensures WrapAxis(WrapAxis(p, centre, width), centre, width) == WrapAxis(p, centre, width)
  {
    assert CDiv2(width) + CDiv2(width) == width;
  }

  /** The position after one move: each axis advances by its frame-scaled velocity. */
  function Move(h: Hooks, p: Particle): Vec3 {
    Vec3(p.position.x + h.increment(p.velocity.x),
         p.position.y + h.increment(p.velocity.y),
         p.position.z + h.increment(p.velocity.z))
  }

  /** Outside the playable world horizontally: [0, (mapWidth - 1) * TILE_UNITS] by [0, (mapHeight - 1) * TILE_UNITS]. */
  predicate OffWorld(env: Env, q: Vec3) {
    || q.x < 0.0 || q.z < 0.0
    || q.x > ((env.mapWidth - 1) * env.tileUnits) as real
    || q.z > ((env.mapHeight - 1) * env.tileUnits) as real
  }

  /**
   A position that passes the world test lies over a tile of the map on both
   axes, so the ground and water queries that follow stay on the map.
   */
  lemma OnWorldTileOnMap(env: Env, q: Vec3)
    requires EnvOk(env) && !OffWorld(env, q)
    ensures 0 <= Trunc(q.x) / env.tileUnits < env.mapWidth
    ensures 0 <= Trunc(q.z) / env.tileUnits < env.mapHeight
  {
    TileOnMap(Trunc(q.x), env.mapWidth, env.tileUnits);
    TileOnMap(Trunc(q.z), env.mapHeight, env.tileUnits);
  }

  /** A coordinate in [0, (n - 1) * t] lies in one of the tiles 0 to n - 1. */
  lemma TileOnMap(a: int, n: int, t: int)
    requires 0 < t && 0 <= a <= (n - 1) * t
    ensures 0 <= a / t < n
  {
  }

  /** The ground height under a position, as the map reports it at the truncated coordinates. */
  function GroundUnder(h: Hooks, q: Vec3): int {
    h.groundHeight(Trunc(q.x), Trunc(q.z))
  }

  /**
   Low enough to test, and below the ground (compared after truncating the height)
   or below zero. Comparing the truncated height with the integer ground height
   decides contact exactly as comparing the height itself would.
   */
  predicate GroundContact(env: Env, h: Hooks, q: Vec3)
    ensures q.y >= env.tileMaxHeight as real ==> !GroundContact(env, h, q)
    ensures q.y < env.tileMaxHeight as real ==>
      (GroundContact(env, h, q) <==> (q.y < GroundUnder(h, q) as real || q.y < 0.0))
  {
    q.y < env.tileMaxHeight as real && (Trunc(q.y) < GroundUnder(h, q) || q.y < 0.0)
  }

  /** The tile under a world position (map_coord of the truncated coordinates). */
  predicate OverVisibleWater(env: Env, h: Hooks, q: Vec3)
    requires EnvOk(env)
  {
    h.visibleWater(Trunc(q.x) / env.tileUnits, Trunc(q.z) / env.tileUnits)
  }

  /** The snow re-drift: each horizontal component is redrawn when its roll is 1 modulo 30. */
  function Redrift(v: Vec3, d: DriftDraws): (r: Vec3)
    ensures r.y == v.y
    ensures r.x == v.x || -39.0 <= r.x <= 40.0
    ensures r.z == v.z || -39.0 <= r.z <= 40.0
    ensures d.xRoll % 30 != 1 ==> r.x == v.x
    ensures d.zRoll % 30 != 1 ==> r.z == v.z
  {
    var vz := if d.zRoll % 30 == 1 then SnowDrift(d.z) as real else v.z;
    var vx := if d.xRoll % 30 == 1 then SnowDrift(d.x) as real else v.x;
    Vec3(vx, v.y, vz)
  }

  /**
   processParticle: returns the particle after the step and the splash it
   requests, if any.
   */
  function ProcessParticle(env: Env, h: Hooks, paused: bool, d: DriftDraws, p: Particle)
    : (r: (Particle, Option<Splash>))
    requires EnvOk(env)
    // the kind, display model and size never change
    ensures r.0.kind == p.kind && r.0.imd == p.imd && r.0.size == p.size
    // paused: nothing happens
    ensures paused ==> r == (p, None)
    ensures !paused ==> r.0.position == Wrap(env, Move(h, p))
    // leaving the world kills the particle with no further change
    ensures !paused && OffWorld(env, Wrap(env, Move(h, p))) ==>
      r.0 == p.(status := Inactive, position := Wrap(env, Move(h, p))) && r.1 == None
    // touching the ground kills it too
    ensures !paused && GroundContact(env, h, Wrap(env, Move(h, p))) ==>
      r.0 == p.(status := Inactive, position := Wrap(env, Move(h, p)))
    // a splash is requested exactly for rain killed by the ground over visible water
    ensures r.1.Some? <==>
      && !paused
      && !OffWorld(env, Wrap(env, Move(h, p)))
      && GroundContact(env, h, Wrap(env, Move(h, p)))
      && p.kind == Rain
      && OverVisibleWater(env, h, Wrap(env, Move(h, p)))
    // at the truncated contact point, on the ground, of size 60
    ensures r.1.Some? ==>
      var q := Wrap(env, Move(h, p));
      r.1.value == Splash(Trunc(q.x), GroundUnder(h, q), Trunc(q.z), 60)
    // a survivor keeps its status and fall speed; rain keeps its drift, snow may redraw it
    ensures !paused && !OffWorld(env, Wrap(env, Move(h, p))) && !GroundContact(env, h, Wrap(env, Move(h, p))) ==>
      && r.0.status == p.status
      && r.0.velocity.y == p.velocity.y
      && (p.kind == Rain ==> r.0.velocity == p.velocity)
      && (p.kind == Snow ==> r.0.velocity == Redrift(p.velocity, d))
  {
    if paused then (p, None)
    else
      var q := Wrap(env, Move(h, p));
      if OffWorld(env, q) then
        (p.(status := Inactive, position := q), None)
      else if q.y < env.tileMaxHeight as real then
        var groundHeight := GroundUnder(h, q);
        if Trunc(q.y) < groundHeight || q.y < 0.0 then
          var splash :=
            if p.kind == Rain && OverVisibleWater(env, h, q)
            then Some(Splash(Trunc(q.x), groundHeight, Trunc(q.z), 60))
            else None;
          (p.(status := Inactive, position := q), splash)
        else
          Survive(q, d, p)
      else
        Survive(q, d, p)
  }

  /** The end of a step that killed nothing: new position, and snow's re-drift. */
  function Survive(q: Vec3, d: DriftDraws, p: Particle): (r: (Particle, Option<Splash>))
    ensures r.1 == None && r.0.status == p.status && r.0.position == q
  {
    if p.kind == Snow then (p.(position := q, velocity := Redrift(p.velocity, d)), None)
    else (p.(position := q), None)
  }

  /**
   A particle still active after an unpaused step is inside the world and not in
   contact with the ground.
   */
  lemma SurvivorIsOnWorld(env: Env, h: Hooks, d: DriftDraws, p: Particle)
    requires EnvOk(env) && p.status == Active
    ensures var r := ProcessParticle(env, h, false, d, p);
      r.0.status == Active ==>
        && !OffWorld(env, r.0.position)
        && !GroundContact(env, h, r.0.position)
        && 0.0 <= r.0.position.x <= ((env.mapWidth - 1) * env.tileUnits) as real
        && 0.0 <= r.0.position.z <= ((env.mapHeight - 1) * env.tileUnits) as real
  {
  }

  /** Snow never asks for a splash, whatever the ground and tiles. */
  lemma SnowNeverSplashes(env: Env, h: Hooks, paused: bool, d: DriftDraws, p: Particle)
    requires EnvOk(env) && p.kind == Snow
    ensures ProcessParticle(env, h, paused, d, p).1 == None
  {
  }
}

=== FILE: spawnrate.dfy ===
/**
 The spawn-rate accumulator and the choice of spawn positions: a fractional
 count grows by a weather-dependent rate times the game speed each tick, its
 integer part is spawned and the fraction carried over.
 */
module SpawnRate {
  import opened AtmosTypes
  import Allocator
  import Motion

  /** The game-speed modifier of one tick; `NaN` when the clock reports none. */
  datatype GameSpeed = NaN | Speed(value: real)

  /**
   The modifier the model accepts: not negative. The game speed is never negative;
   a negative one could drive the carried value to -1 or below, where the unsigned
   cast is undefined.
   */
  predicate SpeedOk(mod: GameSpeed) {
    mod.Speed? ==> 0.0 <= mod.value
  }

  /** Particles per tick at normal speed: 2 for snow, 4 otherwise. */
  function TickRate(w: Weather): real {
    if w == Snowing then 2.0 else 4.0
  }

  /** What one tick adds to the accumulator: nothing for a NaN modifier. */
  function Added(w: Weather, mod: GameSpeed): real {
    match mod
    case NaN => 0.0
    case Speed(m) => TickRate(w) * m
  }

  /**
   One tick of the accumulator: returns the carried fraction and numberToAdd.
   The two results are the integer and fractional parts of the old value plus
   this tick's addition.
   */
  function Accumulate(acc: real, w: Weather, mod: GameSpeed): (r: (real, nat))
    requires 0.0 <= acc && SpeedOk(mod)
    ensures 0.0 <= r.0 < 1.0
    ensures r.1 as real + r.0 == acc + Added(w, mod)
    ensures mod.NaN? && acc < 1.0 ==> r == (acc, 0)
  {
    var total := acc + Added(w, mod);
    var numberToAdd := total.Floor;
    (total - numberToAdd as real, numberToAdd)
  }

  /** Everything a run of ticks adds. */
  function TotalAdded(w: Weather, mods: seq<GameSpeed>): real {
    if |mods| == 0 then 0.0 else Added(w, mods[0]) + TotalAdded(w, mods[1..])
  }

  /** A run of ticks: returns the final accumulator and how many particles were requested in all. */
  function AccumulateTicks(acc: real, w: Weather, mods: seq<GameSpeed>): (r: (real, nat))
    requires 0.0 <= acc < 1.0
    requires forall i :: 0 <= i < |mods| ==> SpeedOk(mods[i])
    ensures 0.0 <= r.0 < 1.0
    ensures r.1 as real + r.0 == acc + TotalAdded(w, mods)
    decreases |mods|
  {
    if |mods| == 0 then (acc, 0)
    else
      var (acc', n) := Accumulate(acc, w, mods[0]);
      var (accEnd, rest) := AccumulateTicks(acc', w, mods[1..]);
      (accEnd, n + rest)
  }

  /**
   Over any run of ticks the particles requested are the whole part of the
   starting fraction plus everything added, and the remainder is what is left:
   nothing is lost or invented by rounding.
   */
  lemma {:induction false} SpawnCountConserved(acc: real, w: Weather, mods: seq<GameSpeed>)
    requires 0.0 <= acc < 1.0
    requires forall i :: 0 <= i < |mods| ==> SpeedOk(mods[i])
    ensures AccumulateTicks(acc, w, mods).1 == (acc + TotalAdded(w, mods)).Floor
    ensures AccumulateTicks(acc, w, mods).0 == acc + TotalAdded(w, mods) - AccumulateTicks(acc, w, mods).1 as real
  {
    var r := AccumulateTicks(acc, w, mods);
    FloorUnique(acc + TotalAdded(w, mods), r.1);
  }

  /** An integer n with n <= x < n + 1 is the floor of x. */
  lemma FloorUnique(x: real, n: int)
    requires n as real <= x < n as real + 1.0
    ensures x.Floor == n
  {
  }

  /** At normal speed, snowing from an empty accumulator requests exactly two particles per tick and carries nothing. */
  lemma SnowAtNormalSpeed()
    ensures Accumulate(0.0, Snowing, Speed(1.0)) == (0.0, 2)
    ensures AccumulateTicks(0.0, Snowing, [Speed(1.0), Speed(1.0)]) == (0.0, 4)
  {
    assert [Speed(1.0), Speed(1.0)][1..] == [Speed(1.0)];
    assert [Speed(1.0)][1..] == [];
  }

  /** Two raw rand() results for the horizontal position, and three for the velocity. */
  datatype SpawnDraws = SpawnDraws(x: nat, z: nat, velocity: Allocator.VelocityDraws)

  /**
   The spawn position: a whole number of tiles away from the camera, at height
   1000. The x offset is drawn from the visible width and centred by half of it;
   the z offset is also drawn from the visible width but centred by half the
   visible depth.
   */
  function SpawnPosition(env: Env, rx: nat, rz: nat): (p: Vec3)
    requires EnvOk(env)
    ensures p.y == 1000.0
    ensures exists dx :: -(env.visibleX / 2) <= dx < env.visibleX - env.visibleX / 2
                         && p.x == (env.playerX + WorldCoord(env, dx)) as real
    ensures exists dz :: -CDiv2(env.visibleY) <= dz < env.visibleX - CDiv2(env.visibleY)
                         && p.z == (env.playerZ + WorldCoord(env, dz)) as real
  {
    var dx := rx % env.visibleX - env.visibleX / 2;
    var dz := rz % env.visibleX - CDiv2(env.visibleY);
    Vec3((env.playerX + WorldCoord(env, dx)) as real, 1000.0, (env.playerZ + WorldCoord(env, dz)) as real)
  }

  /** Every tile offset in the drawn ranges is reachable, so the ranges are exact. */
  lemma SpawnOffsetsExact(env: Env, dx: int, dz: int)
    requires EnvOk(env)
    requires -(env.visibleX / 2) <= dx < env.visibleX - env.visibleX / 2
    requires -CDiv2(env.visibleY) <= dz < env.visibleX - CDiv2(env.visibleY)
    ensures var p := SpawnPosition(env, (dx + env.visibleX / 2) as nat, (dz + CDiv2(env.visibleY)) as nat);
      p.x == (env.playerX + WorldCoord(env, dx)) as real && p.z == (env.playerZ + WorldCoord(env, dz)) as real
  {
    SmallMod(dx + env.visibleX / 2, env.visibleX);
    SmallMod(dz + CDiv2(env.visibleY), env.visibleX);
  }

  lemma SmallMod(a: int, m: int)
    requires 0 <= a < m
    ensures a % m == a
  {
  }

  /**
   Because the z range comes from the visible width, a window wide enough
   compared with its depth spawns particles beyond its own far edge: here a window
   10 tiles wide and 4 deep, five tiles beyond.
   */
  lemma SpawnDepthExceedsWindow()
    ensures var env := Env(0, 0, 10, 4, 64, 64, 128, 510);
      var p := SpawnPosition(env, 0, 9);
      p.z == (7 * 128) as real && p.z == (CDiv2(WorldCoord(env, env.visibleY)) + 5 * 128) as real
  {
  }

  /** The farthest z offset, in tiles, a spawn can take: the largest draw less the centring. */
  function FarthestDepthOffset(env: Env): int {
    env.visibleX - 1 - CDiv2(env.visibleY)
  }

  /** The far edge of the camera window in z, as the wrap computes it. */
  function FarEdge(env: Env): int {
    Motion.WindowHigh(env.playerZ, WorldCoord(env, env.visibleY))
  }

  /**
   With an even tile size, a spawn can land beyond the far edge of the window
   exactly when twice the farthest z offset exceeds the visible depth: a window at
   least two tiles wider than an even depth, or one tile wider than an odd depth.
   The largest draw then lands beyond the edge; otherwise no draw does.
   */
  lemma SpawnBeyondFarEdgeExactly(env: Env)
    requires EnvOk(env) && 0 <= env.visibleY && env.tileUnits % 2 == 0
    ensures 2 * FarthestDepthOffset(env) > env.visibleY ==>
      SpawnPosition(env, 0, env.visibleX - 1).z > FarEdge(env) as real
    ensures 2 * FarthestDepthOffset(env) <= env.visibleY ==>
      forall rx: nat, rz: nat :: SpawnPosition(env, rx, rz).z <= FarEdge(env) as real
  {
    var t := env.tileUnits / 2;
    var y := env.visibleY;
    assert WorldCoord(env, y) == 2 * (y * t);
    assert CDiv2(WorldCoord(env, y)) == y * t;
    forall rz: nat | true
      ensures var dz := rz % env.visibleX - CDiv2(y);
        dz <= FarthestDepthOffset(env)
        && (SpawnPosition(env, 0, rz).z > FarEdge(env) as real <==> 2 * dz > y)
    {
      var dz := rz % env.visibleX - CDiv2(y);
      assert WorldCoord(env, dz) == (2 * dz) * t;
      MulStrictMonotone(y, 2 * dz, t);
    }
    SmallMod(env.visibleX - 1, env.visibleX);
    forall rx: nat, rz: nat
      ensures SpawnPosition(env, rx, rz).z == SpawnPosition(env, 0, rz).z
    {
    }
  }

  /** Multiplying by a positive factor keeps a strict order, both ways. */
  lemma MulStrictMonotone(a: int, b: int, c: int)
    requires 0 < c
    ensures a < b <==> a * c < b * c
  {
    if a < b {
      assert b * c - a * c == (b - a) * c;
    } else {
      assert a * c - b * c == (a - b) * c;
    }
  }

  /**
   The spawn gate: strictly inside the map on both horizontal axes, so a particle
   it admits starts inside the world the step keeps particles in.
   */
  predicate OnGrid(env: Env, p: Vec3)
    ensures OnGrid(env, p) ==> !Motion.OffWorld(env, p)
  {
    && 0.0 < p.x && 0.0 < p.z
    && p.x < WorldCoord(env, env.mapWidth - 1) as real
    && p.z < WorldCoord(env, env.mapHeight - 1) as real
  }

  /** The kind spawned under a weather: none when there is no weather. */
  function SpawnKind(w: Weather): (k: Option<ParticleType>)
    ensures k == Some(Snow) <==> w == Snowing
    ensures k == Some(Rain) <==> w == Raining
    ensures k == None <==> w == NoWeather
  {
    match w
    case Snowing => Some(Snow)
    case Raining => Some(Rain)
    case NoWeather => None
  }
}

=== FILE: types.dfy ===
/**
 Data model of the weather-particle pool: particle records, the weather mode, the
 map/camera environment the simulation reads, and the integer conventions of the
 C++ code (truncating casts and divisions) written out over Dafny's unbounded
 `int` and `real`.
 */
module AtmosTypes {

  datatype Option<+T> = None | Some(value: T)

  /** AP_TYPE. `Rain` is the zero value, which is what a zero-filled record holds. */
  datatype ParticleType = Rain | Snow

  /** AP_STATUS. `Inactive` is the zero value. */
  datatype Status = Inactive | Active

  /** The display model a particle points at; `NoImd` is the null pointer of a zero-filled record. */
  datatype Imd = NoImd | RainImd | SnowImd

  /** The current weather (WT_CLASS). */
  datatype Weather = NoWeather | Raining | Snowing

  /** A float vector; x is east-west, z is north-south, y is height. */
  datatype Vec3 = Vec3(x: real, y: real, z: real)

  /** One slot of the pool (ATPART). */
  datatype Particle = Particle(
    kind: ParticleType,
    status: Status,
    imd: Imd,
    size: nat,
    position: Vec3,
    velocity: Vec3)

  /** The contents of a slot fresh from the zero-filling allocation. */
  const ZeroParticle := Particle(Rain, Inactive, NoImd, 0, Vec3(0.0, 0.0, 0.0), Vec3(0.0, 0.0, 0.0))

  /** A freshly allocated pool of `capacity` slots. */
  function EmptyPool(capacity: nat): (parts: seq<Particle>)
    ensures |parts| == capacity
    ensures forall j :: 0 <= j < capacity ==> parts[j].status == Inactive
  {
    seq(capacity, _ => ZeroParticle)
  }

  /**
   The state of the game the particle code reads: camera position, the extent of
   the visible window in tiles, the map size in tiles, world units per tile
   (TILE_UNITS) and the height above which ground contact is not tested
   (TILE_MAX_HEIGHT).
   */
  datatype Env = Env(
    playerX: int,
    playerZ: int,
    visibleX: int,
    visibleY: int,
    mapWidth: int,
    mapHeight: int,
    tileUnits: int,
    tileMaxHeight: int)

  /** What the code needs of the environment to be defined: a positive tile size
      (map_coord divides by it) and a positive visible width (the spawn code takes
      a remainder modulo it). */
  predicate EnvOk(env: Env) {
    0 < env.tileUnits && 0 < env.visibleX
  }

  /** world_coord: tiles to world units. */
  function WorldCoord(env: Env, tiles: int): int {
    tiles * env.tileUnits
  }

  /** static_cast<int> of a float: truncation toward zero. */
  function Trunc(r: real): (n: int)
    ensures 0.0 <= r ==> n as real <= r < n as real + 1.0
    ensures r < 0.0 ==> n as real - 1.0 < r <= n as real
  {
    if r >= 0.0 then r.Floor else -((-r).Floor)
  }

  /** C integer division by two, which rounds toward zero (Dafny's `/` rounds down). */
  function CDiv2(w: int): (h: int)
    ensures 0 <= w ==> 0 <= h && h + h <= w <= h + h + 1
    ensures w < 0 ==> h <= 0 && h + h - 1 <= w <= h + h
  {
    if w >= 0 then w / 2 else -((-w) / 2)
  }

  // The random velocity macros, applied to a raw non-negative rand() result.

  /** SNOW_SPEED_DRIFT */
  function SnowDrift(r: nat): (v: int)
    ensures -39 <= v <= 40
  {
    40 - r % 80
  }

  /** SNOW_SPEED_FALL */
  function SnowFall(r: nat): (v: int)
    ensures -119 <= v <= -80
  {
    0 - (r % 40 + 80)
  }

  /** RAIN_SPEED_DRIFT */
  function RainDrift(r: nat): (v: int)
    ensures 0 <= v <= 49
  {
    r % 50
  }

  /** RAIN_SPEED_FALL */
  function RainFall(r: nat): (v: int)
    ensures -999 <= v <= -700
  {
    0 - (r % 300 + 700)
  }

  /** Every value of the stated ranges is produced by some draw, so the ranges are exact. */
  lemma DriftRangesExact(v: int)
    ensures -39 <= v <= 40 ==> SnowDrift((40 - v) as nat) == v
    ensures -119 <= v <= -80 ==> SnowFall((-v - 80) as nat) == v
    ensures 0 <= v <= 49 ==> RainDrift(v as nat) == v
    ensures -999 <= v <= -700 ==> RainFall((-v - 700) as nat) == v
  {
  }

  /** The number of active slots in a pool. */
  function ActiveCount(parts: seq<Particle>): (n: nat)
    ensures n <= |parts|
  {
    if |parts| == 0 then 0
    else (if parts[0].status == Active then 1 else 0) + ActiveCount(parts[1..])
  }

  /** Turning one inactive slot into an active one adds exactly one to the count. */
  lemma {:induction false} ActiveCountActivate(parts: seq<Particle>, i: nat, p: Particle)
    requires i < |parts| && parts[i].status == Inactive && p.status == Active
    ensures ActiveCount(parts[i := p]) == ActiveCount(parts) + 1
    decreases |parts|
  {
    if i > 0 {
      assert parts[i := p][1..] == parts[1..][i - 1 := p];
      ActiveCountActivate(parts[1..], i - 1, p);
    } else {
      assert parts[i := p][1..] == parts[1..];
    }
  }
}

=== FILE: weather.dfy ===
/**
 The weather-mode controller and the per-tick update: the process-wide state
 (weather, pool, cursor, spawn accumulator) with the rule that a pool exists
 exactly while there is weather.
 */
module WeatherControl {
  import opened AtmosTypes
  import opened Allocator
  import opened Motion
  import opened SpawnRate

  /**
   The module's global state. `capacity` is the fixed pool size; `parts` is the
   pool when one is allocated; `freeParticle` is the allocator's cursor and
   `accumulated` the fractional spawn count carried between ticks.
   */
  datatype Atmos = Atmos(
    capacity: nat,
    weather: Weather,
    parts: Option<seq<Particle>>,
    freeParticle: nat,
    accumulated: real)

  /** The state invariant: a pool of the full size exists exactly while there is weather. */
  predicate Valid(s: Atmos) {
    && 2 <= s.capacity
    && (s.parts.Some? <==> s.weather != NoWeather)
    && (s.parts.Some? ==> |s.parts.value| == s.capacity)
    && s.freeParticle < s.capacity
    && 0.0 <= s.accumulated < 1.0
  }

  /** The state at program start: no weather, no pool. */
  function Initial(capacity: nat): (s: Atmos)
    requires 2 <= capacity
    ensures Valid(s) && s.weather == NoWeather && s.parts == None
  {
    Atmos(capacity, NoWeather, None, 0, 0.0)
  }

  /**
   atmosInitSystem: allocates an all-inactive pool if there is weather and no pool
   yet; always resets the cursor.
   */
  function InitSystem(s: Atmos): (r: Atmos)
    ensures r.freeParticle == 0
    ensures r.weather == s.weather && r.capacity == s.capacity && r.accumulated == s.accumulated
    ensures r.weather != NoWeather ==> r.parts.Some?
    ensures s.parts.Some? ==> r.parts == s.parts
    ensures s.parts.None? && r.parts.Some? ==> r.parts.value == EmptyPool(s.capacity)
    ensures Valid(s) ==> Valid(r)
  {
    var parts := if s.parts.None? && s.weather != NoWeather then Some(EmptyPool(s.capacity)) else s.parts;
    s.(parts := parts, freeParticle := 0)
  }

  /** atmosSetWeatherType */
  function SetWeatherType(s: Atmos, t: Weather): (r: Atmos)
    ensures r.weather == t && r.capacity == s.capacity && r.accumulated == s.accumulated
    ensures Valid(s) ==> Valid(r)
    // clearing the weather always releases the pool
    ensures t == NoWeather ==> r.parts == None
    // a change of weather restarts the allocator's search
    ensures t != s.weather ==> r.freeParticle == 0
    // setting the current weather again changes nothing
    ensures Valid(s) && t == s.weather ==> r == s
    // switching between rain and snow keeps the particles in flight
    ensures Valid(s) && s.weather != NoWeather && t != NoWeather ==> r.parts == s.parts
    // starting weather from none gives a fresh, all-inactive pool
    ensures Valid(s) && s.weather == NoWeather && t != NoWeather ==> r.parts == Some(EmptyPool(s.capacity))
  {
    var s1 := if t != s.weather then InitSystem(s.(weather := t)) else s;
    if t == NoWeather && s1.parts.Some? then s1.(parts := None) else s1
  }

  /** atmosGetWeatherType: under the invariant the answer also tells whether a pool exists. */
  function GetWeatherType(s: Atmos): (w: Weather)
    ensures Valid(s) ==> (w == NoWeather <==> s.parts.None?)
    ensures Valid(s) && w != NoWeather ==> |s.parts.value| == s.capacity
  {
    s.weather
  }

  /** The weather read back is the one last set, and initialisation does not change it. */
  lemma WeatherReadBack(s: Atmos, t: Weather)
    ensures GetWeatherType(SetWeatherType(s, t)) == t
    ensures GetWeatherType(InitSystem(s)) == GetWeatherType(s)
  {
  }

  /** Initialising twice is the same as initialising once. */
  lemma InitSystemIdempotent(s: Atmos)
    ensures InitSystem(InitSystem(s)) == InitSystem(s)
  {
  }

  /** A call the game makes on the controller. */
  datatype Command = SetWeather(t: Weather) | Init

  function Apply(s: Atmos, c: Command): Atmos {
    match c
    case SetWeather(t) => SetWeatherType(s, t)
    case Init => InitSystem(s)
  }

  function Run(s: Atmos, cs: seq<Command>): Atmos
    decreases |cs|
  {
    if |cs| == 0 then s else Run(Apply(s, cs[0]), cs[1..])
  }

  /**
   The invariant holds from program start through any sequence of weather
   changes and initialisations, and the weather is the last one set.
   */
  lemma {:induction false} ControllerKeepsInvariant(s: Atmos, cs: seq<Command>)
    requires Valid(s)
    ensures Valid(Run(s, cs))
    ensures Run(s, cs).capacity == s.capacity
    ensures (exists i :: 0 <= i < |cs| && cs[i].SetWeather?) ==>
      Run(s, cs).weather == cs[LastSet(cs)].t
    decreases |cs|
  {
    if |cs| > 0 {
      ControllerKeepsInvariant(Apply(s, cs[0]), cs[1..]);
      if exists i :: 0 <= i < |cs| && cs[i].SetWeather? {
        if exists i :: 0 <= i < |cs[1..]| && cs[1..][i].SetWeather? {
          assert LastSet(cs) == LastSet(cs[1..]) + 1;
        } else {
          assert forall j :: 1 <= j < |cs| ==> cs[1..][j - 1] == cs[j];
          InitsKeepWeather(Apply(s, cs[0]), cs[1..]);
        }
      }
    }
  }

  /** The index of the last weather change in a command sequence. */
  function LastSet(cs: seq<Command>): (i: nat)
    requires exists i :: 0 <= i < |cs| && cs[i].SetWeather?
    ensures i < |cs| && cs[i].SetWeather?
    ensures forall j :: i < j < |cs| ==> cs[j].Init?
    decreases |cs|
  {
    if exists i :: 0 <= i < |cs[1..]| && cs[1..][i].SetWeather? then
      LastSet(cs[1..]) + 1
    else
      0
  }

  lemma {:induction false} InitsKeepWeather(s: Atmos, cs: seq<Command>)
    requires forall j :: 0 <= j < |cs| ==> cs[j].Init?
    ensures Run(s, cs).weather == s.weather
    decreases |cs|
  {
    if |cs| > 0 {
      InitsKeepWeather(Apply(s, cs[0]), cs[1..]);
    }
  }

  // ---------------------------------------------------------------------------
  // The per-tick update

  /** Slot `j` after the simulation pass: active particles step, inactive ones stay. */
  function StepSlot(env: Env, h: Hooks, drift: nat -> DriftDraws, parts: seq<Particle>, j: nat)
    : (Particle, Option<Splash>)
    requires EnvOk(env) && j < |parts|
  {
    if parts[j].status == Active then ProcessParticle(env, h, false, drift(j), parts[j])
    else (parts[j], None)
  }

  /** The splash requests of the first `n` slots, in slot order. */
  function SplashesUpTo(env: Env, h: Hooks, drift: nat -> DriftDraws, parts: seq<Particle>, n: nat)
    : seq<Splash>
    requires EnvOk(env) && n <= |parts|
  {
    if n == 0 then []
    else
      SplashesUpTo(env, h, drift, parts, n - 1) +
      (match StepSlot(env, h, drift, parts, n - 1).1
       case Some(sp) => [sp]
       case None => [])
  }

  /** The pool after the simulation pass. */
  function Stepped(env: Env, h: Hooks, drift: nat -> DriftDraws, parts: seq<Particle>): (r: seq<Particle>)
    requires EnvOk(env)
    ensures |r| == |parts|
  {
    seq(|parts|, j requires 0 <= j < |parts| => StepSlot(env, h, drift, parts, j).0)
  }

  /**
   The simulation pass of atmosUpdateSystem: every active slot takes one step,
   inactive slots are left alone, and the splash requests are gathered in slot
   order.
   */
  method ProcessAll(env: Env, h: Hooks, drift: nat -> DriftDraws, before: seq<Particle>)
    returns (parts: seq<Particle>, splashes: seq<Splash>)
    requires EnvOk(env)
    ensures |parts| == |before|
    ensures forall j :: 0 <= j < |before| && before[j].status == Inactive ==> parts[j] == before[j]
    ensures forall j :: 0 <= j < |before| && before[j].status == Active ==>
      parts[j] == ProcessParticle(env, h, false, drift(j), before[j]).0
    ensures splashes == SplashesUpTo(env, h, drift, before, |before|)
  {
    parts := before;
    splashes := [];
    var i := 0;
    while i < |parts|
      invariant 0 <= i <= |parts| == |before|
      invariant forall j :: 0 <= j < i ==> parts[j] == StepSlot(env, h, drift, before, j).0
      invariant forall j :: i <= j < |parts| ==> parts[j] == before[j]
      invariant splashes == SplashesUpTo(env, h, drift, before, i)
    {
      if parts[i].status == Active {
        var (q, splash) := ProcessParticle(env, h, false, drift(i), parts[i]);
        parts := parts[i := q];
        if splash.Some? {
          splashes := splashes + [splash.value];
        }
      }
      i := i + 1;
    }
  }

  /** A particle as the spawn loop leaves it: active, of the weather's kind, at spawn height, inside the map. */
  predicate FreshSpawn(env: Env, w: Weather, p: Particle) {
    && p.status == Active
    && SpawnKind(w) == Some(p.kind)
    && p.position.y == 1000.0
    && OnGrid(env, p.position)
  }

  /** The kind spawned under a weather other than none. */
  function KindOf(w: Weather): (k: ParticleType)
    requires w != NoWeather
    ensures SpawnKind(w) == Some(k)
  {
    if w == Snowing then Snow else Rain
  }

  /**
   Spawn attempt `k`: draw a position; one that passes the map gate is handed to
   the allocator, one that fails it is skipped.
   */
  function Attempt(env: Env, w: Weather, parts: seq<Particle>, free: nat, k: nat,
                   spawn: nat -> SpawnDraws): (r: (seq<Particle>, nat))
    requires EnvOk(env) && w != NoWeather && 2 <= |parts| && free < |parts|
    ensures |r.0| == |parts| && r.1 < |parts|
    ensures !OnGrid(env, SpawnPosition(env, spawn(k).x, spawn(k).z)) ==> r == (parts, free)
  {
    var d := spawn(k);
    var pos := SpawnPosition(env, d.x, d.z);
    if OnGrid(env, pos) then AddParticle(parts, free, pos, KindOf(w), d.velocity) else (parts, free)
  }

  /** Spawn attempts `k` to `n - 1`, in order, from pool `parts` and cursor `free`. */
  function SpawnAttempts(env: Env, w: Weather, parts: seq<Particle>, free: nat, k: nat, n: nat,
                         spawn: nat -> SpawnDraws): (r: (seq<Particle>, nat))
    requires EnvOk(env) && w != NoWeather && 2 <= |parts| && free < |parts|
    ensures |r.0| == |parts| && r.1 < |parts|
    // when no attempt passes the gate, neither the pool nor the cursor changes
    ensures (forall i :: k <= i < n ==> !OnGrid(env, SpawnPosition(env, spawn(i).x, spawn(i).z)))
      ==> r == (parts, free)
    decreases n - k
  {
    if k >= n then (parts, free)
    else
      var next := Attempt(env, w, parts, free, k, spawn);
      SpawnAttempts(env, w, next.0, next.1, k + 1, n, spawn)
  }

  /** Each slot holds what it held before, or a fresh spawn in a slot that was inactive before. */
  predicate OnlyFreshSpawns(env: Env, w: Weather, before: seq<Particle>, after: seq<Particle>) {
    && |after| == |before|
    && forall j :: 0 <= j < |before| ==>
         || after[j] == before[j]
         || (before[j].status == Inactive && FreshSpawn(env, w, after[j]))
  }

  /**
   One attempt changes at most one slot, the cursor's new slot, which was inactive;
   the pool stays a stepped pool plus fresh spawns, with at most one more active particle.
   */
  lemma AttemptOnlyFillsFreeSlot(env: Env, w: Weather, stepped: seq<Particle>, parts: seq<Particle>, free: nat,
                                 k: nat, spawn: nat -> SpawnDraws)
    requires EnvOk(env) && w != NoWeather && 2 <= |parts| && free < |parts|
    requires OnlyFreshSpawns(env, w, stepped, parts)
    ensures var r := Attempt(env, w, parts, free, k, spawn);
      && (forall j :: 0 <= j < |parts| && r.0[j] != parts[j] ==> j == r.1 && parts[j].status == Inactive)
      && OnlyFreshSpawns(env, w, stepped, r.0)
      && ActiveCount(r.0) <= ActiveCount(parts) + 1
  {
    var r := Attempt(env, w, parts, free, k, spawn);
    if r != (parts, free) {
      var d := spawn(k);
      var pos := SpawnPosition(env, d.x, d.z);
      var p := Spawned(pos, KindOf(w), d.velocity);
      assert FreshSpawn(env, w, p);
      assert r.0 == parts[r.1 := p];
      assert stepped[r.1].status == Inactive;
      ActiveCountActivate(parts, r.1, p);
    }
  }

  /**
   Spawning never overwrites a live particle, whether it survived the step or was
   spawned by an earlier attempt: every slot it changes was inactive after the
   step and now holds an active particle of the weather's kind, at height 1000,
   inside the map; and each attempt adds at most one active particle.
   */
  lemma {:induction false} SpawnAttemptsOnlyFillFreeSlots(env: Env, w: Weather, stepped: seq<Particle>,
      parts: seq<Particle>, free: nat, k: nat, n: nat, spawn: nat -> SpawnDraws)
    requires EnvOk(env) && w != NoWeather && 2 <= |parts| && free < |parts| && k <= n
    requires OnlyFreshSpawns(env, w, stepped, parts)
    requires ActiveCount(parts) <= ActiveCount(stepped) + k
    ensures var r := SpawnAttempts(env, w, parts, free, k, n, spawn);
      && (forall j :: 0 <= j < |parts| && parts[j].status == Active ==> r.0[j] == parts[j])
      && OnlyFreshSpawns(env, w, stepped, r.0)
      && ActiveCount(r.0) <= ActiveCount(stepped) + n
    decreases n - k
  {
    if k < n {
      var next := Attempt(env, w, parts, free, k, spawn);
      AttemptOnlyFillsFreeSlot(env, w, stepped, parts, free, k, spawn);
      SpawnAttemptsOnlyFillFreeSlots(env, w, stepped, next.0, next.1, k + 1, n, spawn);
    }
  }

  /**
   The spawn loop of atmosUpdateSystem: `numberToAdd` attempts, each drawing a
   position and handing it to the allocator only when it passes the map gate.
   */
  method SpawnAll(env: Env, w: Weather, stepped: seq<Particle>, free0: nat, numberToAdd: nat, spawn: nat -> SpawnDraws)
    returns (parts: seq<Particle>, free: nat)
    requires EnvOk(env) && w != NoWeather
    requires 2 <= |stepped| && free0 < |stepped|
    ensures |parts| == |stepped| && free < |parts|
    // pool and cursor are those of the allocator applied, in order, to the gated positions
    ensures (parts, free) == SpawnAttempts(env, w, stepped, free0, 0, numberToAdd, spawn)
    // no particle that survived the step is overwritten, and at most numberToAdd are added
    ensures OnlyFreshSpawns(env, w, stepped, parts)
    ensures ActiveCount(parts) <= ActiveCount(stepped) + numberToAdd
    // no position through the gate: nothing changes
    ensures (forall i :: 0 <= i < numberToAdd ==> !OnGrid(env, SpawnPosition(env, spawn(i).x, spawn(i).z)))
      ==> parts == stepped && free == free0
  {
    parts, free := stepped, free0;
    var k := 0;
    while k < numberToAdd
      invariant 0 <= k <= numberToAdd
      invariant |parts| == |stepped| && free < |parts|
      invariant SpawnAttempts(env, w, parts, free, k, numberToAdd, spawn)
             == SpawnAttempts(env, w, stepped, free0, 0, numberToAdd, spawn)
    {
      var d := spawn(k);
      var pos := SpawnPosition(env, d.x, d.z);
      if OnGrid(env, pos) {
        var (parts', free') := AddParticle(parts, free, pos, KindOf(w), d.velocity);
        parts, free := parts', free';
      }
      k := k + 1;
    }
    SpawnAttemptsOnlyFillFreeSlots(env, w, stepped, stepped, free0, 0, numberToAdd, spawn);
  }

  /**
   atmosUpdateSystem: unless paused or without weather, steps every active particle
   (collecting splash requests), advances the spawn accumulator and tries to spawn
   the whole number it yields. `drift(j)` are the re-drift draws of slot `j` and
   `spawn(k)` the draws of the `k`-th spawn attempt.
   */
  method UpdateSystem(s: Atmos, env: Env, h: Hooks, paused: bool, mod: GameSpeed,
                      drift: nat -> DriftDraws, spawn: nat -> SpawnDraws)
    returns (s': Atmos, splashes: seq<Splash>)
    requires Valid(s) && EnvOk(env) && SpeedOk(mod)
    ensures Valid(s') && s'.capacity == s.capacity && s'.weather == s.weather
    // paused or no weather: nothing at all happens
    ensures paused || s.weather == NoWeather ==> s' == s && splashes == []
    ensures !paused && s.weather != NoWeather ==>
      && s'.accumulated == Accumulate(s.accumulated, s.weather, mod).0
      && splashes == SplashesUpTo(env, h, drift, s.parts.value, s.capacity)
      // the stepped pool then goes through numberToAdd gated allocation attempts
      && (s'.parts.value, s'.freeParticle)
         == SpawnAttempts(env, s.weather, Stepped(env, h, drift, s.parts.value), s.freeParticle,
                          0, Accumulate(s.accumulated, s.weather, mod).1, spawn)
      // each slot holds its stepped particle, or a fresh spawn in a slot the step left inactive
      && OnlyFreshSpawns(env, s.weather, Stepped(env, h, drift, s.parts.value), s'.parts.value)
      && ActiveCount(s'.parts.value)
         <= ActiveCount(Stepped(env, h, drift, s.parts.value)) + Accumulate(s.accumulated, s.weather, mod).1
      // no position through the gate: the pool is the stepped one and the cursor stays
      && ((forall i :: 0 <= i < Accumulate(s.accumulated, s.weather, mod).1
             ==> !OnGrid(env, SpawnPosition(env, spawn(i).x, spawn(i).z)))
          ==> s'.parts.value == Stepped(env, h, drift, s.parts.value) && s'.freeParticle == s.freeParticle)
  {
    if paused || s.weather == NoWeather {
      return s, [];
    }
    var stepped;
    stepped, splashes := ProcessAll(env, h, drift, s.parts.value);
    assert stepped == Stepped(env, h, drift, s.parts.value);
    var (acc, numberToAdd) := Accumulate(s.accumulated, s.weather, mod);
    var parts, free := SpawnAll(env, s.weather, stepped, s.freeParticle, numberToAdd, spawn);
    s' := s.(parts := Some(parts), freeParticle := free, accumulated := acc);
  }
}
